=== FILE: README.md ===
# SimpleScrapeV2 crawl-and-convert core, in Dafny

This project models the pure core of the SimpleScrapeV2 wiki scraper
(`main.py`). The scraper walks a Fandom wiki's `Special:AllPages` index page
by page. It downloads every article the index lists and converts each
article's HTML content into a Markdown file named after the article's title.

The model is functional. The parsed HTML is a `Node` tree, the save
directory is a map from file name to file content, and the site is a value
that maps a URL to what fetching and parsing it gave. The modules follow the
program's functions:

- `Wrappers` (`wrappers.dfy`) holds the `Option` type for values that may
  be absent: a title, a content tree, a next-page link.
- `Strings` (`strings.dfy`) covers the Python string built-ins the scraper
  relies on: stripping whitespace with the exact `str.isspace` character
  set, removing trailing slashes, joining with and without a separator,
  and the decimal form of a natural number.
- `Cleaning` (`cleaning.dfy`) covers `clean_filename` and
  `remove_references`, the two regular-expression substitutions. A
  substitution is modelled as one left-to-right pass that deletes a match
  and resumes after it.
- `Markdown` (`markdown.dfy`) covers `html_to_markdown`. The recursive
  conversion has one lemma per rule of its rule table, each stated against
  a reference definition built from the source's generator expressions.
- `Download` (`download.dfy`) covers the decision and write logic of
  `download_page`, plus the batch of downloads one index page dispatches.
  The batch runs in submission order.
- `Scrape` (`scrape.dfy`) covers `scrape_fandom`:
  - the index URL derivation;
  - the crawl loop, as a method whose loop invariant ties its variables to
    the index pages visited so far;
  - a fuel-bounded recursive walk, which the loop is proved to follow;
  - the cumulative progress strings the generator yields.

Some consequences of the source that the model makes explicit:

- `remove_references` is not idempotent: `"[[1]1]"` becomes `"[1]"`.
- Markers are removed per text node, so a marker split across two nodes
  survives.
- Two titles that clean to the same file name share one file. In the
  sequential model, and always across index pages, the second article is
  reported as already existing and is never written.
- A next-page link that leads back to its own page makes the walk run
  forever.

## Model

| member | source | states |
|---|---|---|
| Strings.Strip | main.py:58 | the result is empty exactly when the input is all whitespace; otherwise it neither starts nor ends with whitespace (the `str.isspace` set) |
| Strings.StripIsInfix | main.py:58 | stripping removes only leading and trailing whitespace: the result is a contiguous piece of the input with whitespace on both sides |
| Strings.StripTrimmed | main.py:58 | a string without whitespace at either end is left unchanged |
| Strings.TrimTrailingSlashes | main.py:100 | the result is a prefix of the input, everything removed is `/`, and the result does not end in `/` |
| Strings.NatToString | main.py:38 | `str(n)` is a non-empty string of decimal digits without a leading zero |
| Strings.ParseNatToString | main.py:38 | reading the digits of `str(n)` back gives `n` |
| Strings.JoinSnoc | main.py:111-112 | joining one more message adds exactly one newline and that message at the end |
| Strings.Repeat | main.py:27-28 | the heading marker has exactly `level` characters, every one of them `#` |
| Strings.ConcatAppend | main.py:43 | joining with nothing between is compatible with concatenation: the join of `a + b` is the join of `a` followed by the join of `b` |
| Cleaning.CleanFilename | main.py:11-12 | the result is no longer than the input and holds none of `\ / * ? : " < > \|` |
| Cleaning.CleanFilenameAppend | main.py:11-12 | cleaning distributes over concatenation, so the kept characters stay in their original order |
| Cleaning.CleanFilenameCounts | main.py:11-12 | an illegal character never survives; every other character occurs exactly as often as in the input |
| Cleaning.CleanFilenameFixpoint | main.py:11-12 | a name is unchanged exactly when it holds no illegal character |
| Cleaning.CleanFilenameIdempotent | main.py:11-12 | cleaning twice is cleaning once |
| Cleaning.MarkerAt | main.py:16 | the match of `\[\d+\]` anchored at the front is a marker, and it is the only marker that is a prefix of the text |
| Cleaning.MarkerPrefixLength | main.py:16 | a marker prefix is exactly as long as the greedy digit run after its bracket plus two |
| Cleaning.RemoveReferences | main.py:15-16 | the output is never longer than the input |
| Cleaning.DropsLeadingMarker | main.py:15-16 | a whole marker at the front is deleted and the rest is processed as if it were absent |
| Cleaning.KeepsUnmatchedFront | main.py:15-16 | a first character that starts no marker is kept, and the rest is processed on its own |
| Cleaning.UnmatchedBracketKept | main.py:15-16 | in `"[[1]"` the first `[` starts no marker and survives while the marker after it is deleted, giving `"["` |
| Cleaning.KeepsPlainPrefix | main.py:15-16 | text without `[` is copied unchanged, whatever follows it |
| Cleaning.UnchangedIffMarkerFree | main.py:15-16 | the text is returned unchanged if and only if no infix of it is a marker |
| Cleaning.KeepsProse | main.py:15-16 | every character other than brackets and digits survives, in order |
| Cleaning.NestedMarkerSurvives | main.py:15-16 | `"[[1]1]"` becomes `"[1]"`, which is itself a marker, so a second pass changes the result again |
| Markdown.ListItems | main.py:35 | the selected children are `li` elements taken from the children, in order |
| Markdown.ListItemsSingle | main.py:35 | a single child is selected exactly when it is an `li` element |
| Markdown.ListItemsAppend | main.py:35 | the selection distributes over concatenation of the children, so it keeps their document order |
| Markdown.ListItemsCounts | main.py:35 | every `li` child is selected as often as it occurs among the children, and nothing else is selected |
| Markdown.ChildrenInOrder | main.py:43 | the children are converted one by one and concatenated in document order with nothing between them |
| Markdown.ChildrenAppend | main.py:43 | the conversion of a concatenation of children is the concatenation of their conversions |
| Markdown.ToMarkdown | main.py:19-43 | converting a text never lengthens it, and a link's text neither starts nor ends with whitespace |
| Markdown.TextRule | main.py:20-21 | a text node converts to its text with the citation markers removed, and to itself when it has none |
| Markdown.TextChildren | main.py:20-24 | under an element whose children are all text, the result is the concatenation of each text with its own markers removed |
| Markdown.ParagraphRule | main.py:23-24 | `p` gives two newlines, the children and two newlines; an empty `p` gives `"\n\n\n\n"` |
| Markdown.HeadingRule | main.py:26-28 | `hL` for L in 2..6 gives a newline, L hashes, a space, the children and a newline |
| Markdown.LinkRule | main.py:30-32 | `a` gives the stripped concatenation of its converted children, and is empty exactly when that concatenation is all whitespace |
| Markdown.BulletsSpec | main.py:35 | the bullet lines are one `- item` line per direct `li` child, in order |
| Markdown.NumberedSpec | main.py:38 | the numbered lines are one `k. item` line per direct `li` child, with k counting the `li` children only |
| Markdown.NumberedLinesTail | main.py:38 | dropping the first item renumbers the remaining items from the next number |
| Markdown.UnorderedListRule | main.py:34-35 | `ul` gives a newline, then `- ` + converted item + newline for each direct `li` child |
| Markdown.OrderedListRule | main.py:37-38 | `ol` gives a newline, then `i. ` + converted item + newline, i the 1-based position among the direct `li` children |
| Markdown.ListItemsIdempotent | main.py:35 | selecting the `li` children of the selected `li` children selects nothing new |
| Markdown.ListIgnoresNonItems | main.py:34-38 | direct children of a list that are not `li` contribute nothing and do not shift the numbering |
| Markdown.ImageRule | main.py:40-41 | `img` gives nothing whatever it contains, so deleting an image child never changes its parent's conversion |
| Markdown.PassThroughRule | main.py:43 | every tag without a rule (`h1`, `div`, `li` among them) gives the plain concatenation of its converted children |
| Markdown.ItemIsTransparent | main.py:43 | `li` has no rule of its own and converts to its children |
| Markdown.PlainText | main.py:20-21 | a text node without `[` converts to itself |
| Markdown.PlainItem | main.py:43 | a list item holding one text without `[` converts to that text |
| Markdown.TwoItemOrderedList | main.py:37-38 | an ordered list of two plain items gives `"\n1. x\n2. y\n"` |
| Markdown.NestedListExample | main.py:34-38 | a list nested in a list item is converted in place, on the item's line, with its own numbering from 1 |
| Download.FileName | main.py:59 | the file name ends in `.md` and holds no illegal character |
| Download.DocumentHeading | main.py:66-69 | a saved file's first line is `# ` followed by the title, when the title has no line break |
| Download.MessageTellsOutcome | main.py:56-73 | equal result strings report the same kind of outcome, and the same title or URL unless they are errors |
| Download.Save | main.py:59-71 | a title whose file exists is skipped without a write; otherwise exactly `"# " + title + "\n\n" + body` is added under the cleaned name |
| Download.DownloadPage | main.py:52-73 | an exception gives the error outcome; a missing title or content gives "missing content"; no existing file is changed; a download adds exactly one new file, under the cleaned stripped title |
| Download.WritesNewFile | main.py:58-71 | a page whose file is absent is written under `clean_filename(strip(title)) + ".md"` with exactly the document body, and nothing else changes |
| Download.SkipsExistingFile | main.py:62-64 | a page whose file exists is reported as already existing and the directory is unchanged |
| Download.DownloadIdempotent | main.py:52-71 | a second call against the directory the first produced reports "already exists" where the first downloaded, repeats every other outcome, and leaves the directory unchanged |
| Download.CollidingTitles | main.py:59 | the different titles `AC/DC` and `ACDC` share a file name |
| Download.TitleCollision | main.py:59-64 | of two titles that share a file name, the first is written and the second is reported as already existing without a write |
| Download.Dispatch | main.py:85-88 | every submitted URL gets exactly one outcome and no existing file is changed |
| Download.DispatchReports | main.py:85-88 | each job is reported for its own page: the error of an unreachable page, "missing content" without title or content, and otherwise a download or skip of its stripped title, whose file exists after the batch |
| Download.DownloadReported | main.py:52-73 | one download is reported as above, against any later directory that keeps the files it left |
| Download.DispatchSplit | main.py:85-88 | a batch cut anywhere is its first part followed by the rest against the files the first part left |
| Download.DispatchInOrder | main.py:85-88 | the i-th job's outcome is what its download gives against the files the first i jobs left |
| Download.DispatchCount | main.py:85-88 | the directory grows by exactly the number of downloads in the batch |
| Download.DispatchNoNewFiles | main.py:85-88 | once a batch has run, running it again against the result downloads nothing and changes nothing |
| Scrape.AllPagesUrl | main.py:100-102 | the first index URL is the site URL with every trailing `/` removed, followed by `/wiki/Special:AllPages` |
| Scrape.TrailingSlashIgnored | main.py:100-102 | adding a trailing `/` to the site URL does not change the first index URL |
| Scrape.Jobs | main.py:82-86 | one job per link, in order: its URL is the base URL followed by the link's `href`, and its page is what that URL gives |
| Scrape.NextUrl | main.py:90-96 | there is a next URL exactly when the index page has a next-page link, and it is the base URL followed by that link's `href`; with a non-empty base the walk goes on exactly then |
| Scrape.Walk | main.py:107-113 | the walk visits only non-empty URLs, starts at the first index page, and either ends by itself or uses all its fuel |
| Scrape.StoreAfter | main.py:113 | processing index pages never changes a file that already exists |
| Scrape.StoreAfterSnoc | main.py:110-113 | processing one more index page applies its downloads to the files the earlier pages left |
| Scrape.ProcessIndexPageSaves | main.py:81-88 | every article an index page lists that has a title and content is in the directory once the page is processed, under its cleaned stripped title |
| Scrape.StoreAfterSaves | main.py:110-113 | an article with a title and content listed on any visited index page is in the directory at the end of the walk |
| Scrape.Progress | main.py:110-117 | one yield per visited index page, plus the completion yield when the loop ended by itself |
| Scrape.ProgressGrows | main.py:110-117 | each yielded string is the previous one plus a newline and one more message; the last one adds `Scraping completed!` |
| Scrape.VisitNext | main.py:110-113 | one turn of the loop keeps the messages, yields and files equal to those of the pages visited so far, one page further along the walk |
| Scrape.ChainWalk | main.py:110-113 | along a chain of K index pages whose last has no next link, the loop visits exactly those K pages and ends by itself |
| Scrape.WalkFollowsLinks | main.py:110-113 | the loop only follows next links: each visited index page is the next URL of the one before, and a walk that ended by itself has visited a chain |
| Scrape.ChainProgress | main.py:107-117 | a chain of K index pages yields K + 1 strings: the k-th joins the first k index messages, and the last adds the completion message |
| Scrape.SelfLinkNeverFinishes | main.py:110-113 | a next link back to its own page is followed forever: with any fuel the walk never ends by itself |
| Scrape.WalkIndex | main.py:107-117 | the loop visits exactly the pages of the walk; the yields are the cumulative progress strings of those pages, with the completion line exactly when the loop ended by itself; the directory is the result of processing the visited pages in order |
| Scrape.ScrapeFandom | main.py:99-117 | the same, starting from the derived first index URL with the slash-stripped base URL, and no file that already existed is changed |

## Left out

- HTTP requests and BeautifulSoup parsing (main.py:49-53, 78-81, 90-92) are
  outside the model. A `Site` value gives, for each URL, the parsed article
  (an exception's text, or the optional title text and content tree) or the
  parsed index page (article `href`s and optional next `href`).
- The locale-dependent `'next page'` text match (main.py:92) is left out.
  The model takes the next link's `href` as given, or its absence.
- Every request is taken to return. The source calls `requests.get`
  without a timeout (main.py:49, 78). A server that never answers blocks
  the crawl, or a download worker that leaving the thread pool then waits
  for forever, so the scrape stalls instead of reporting an error.
- A failure while fetching an index page is left out. In the source it
  escapes `get_and_process_page` and ends the generator.
- An article or next-page anchor without an `href` is left out. Reading the
  missing attribute (main.py:82, 94) raises `KeyError`, which also ends the
  generator. The model takes every link's `href` as present.
- `ThreadPoolExecutor` / `as_completed` (main.py:85-88) are left out.
  - Downloads run one after another in submission order, and each sees the
    files earlier ones wrote.
  - The concurrency bound of 10 and the completion order are not modelled.
  - The check-then-write race between two workers whose titles share a file
    name is not modelled either.
- The progress lines `get_and_process_page` prints are left out. So are
  `print` and the per-article result strings, although `Download.Message`
  gives each outcome's exact text.
- `time.sleep(random.uniform(1, 2))` (main.py:114) is left out, because it
  is a delay drawn at random.
- The real filesystem is abstracted:
  - `os.path.exists`, `os.makedirs` and `open`/`write` are a map from file
    name to content.
  - The save path is implicit.
  - File names compare case-sensitively. On a case-insensitive filesystem
    `Foo.md` and `foo.md` are one file, so the existence test (main.py:63)
    finds more collisions than the model does.
  - The file body is stored as written. Text-mode `open` (main.py:67) turns
    each `"\n"` into `"\r\n"` on Windows, which the model does not do.
  - A write that raises is not modelled. In the source it would turn into
    an error outcome, possibly after a partial file.
- The Gradio GUI (main.py:120-146) is left out.
- Cleaning.MarkerAt: Python's `\d` also matches non-ASCII decimal digits.
  The model accepts only `0`-`9`.
- Strings.Strip: the whitespace set is a fixed list of code points equal to
  `str.isspace`. It is not derived from the Unicode database.
- Download.DownloadPage: a conversion that raises is not modelled. A
  content tree nested deeper than Python's recursion limit makes the
  converter raise `RecursionError`. The source turns that into an error
  outcome and writes no file, because the file is opened only after the
  conversion. The model converts trees of any depth and writes them.
- Tags and titles are taken as the parser produced them.
  - Lower-casing by the parser and `title_el.text` (the concatenation of the
    heading's strings) are not modelled.
  - Every string node is a `Text` leaf. That includes comments, which the
    source also converts as text because their `name` is `None`.
- Scrape.Walk: the walk is bounded by a `fuel` count of index pages,
  because the source does not guard against cycles of next links. A walk
  that uses all its fuel is reported as not finished. No completion line is
  yielded then, and the source would keep going.
- The yields are modelled as the sequence of strings the generator
  produces. Their interleaving with the page processing is not modelled.
  In the source each index line is yielded before its page is processed,
  not after.

=== FILE: cleaning.dfy ===
/** The two regular-expression substitutions of the scraper:
    `clean_filename` deletes the characters a file name may not contain,
    `remove_references` deletes bracketed numeric citation markers such as
    `[12]` in one left-to-right pass. */
module Cleaning {
  import opened Strings

  // ---------------------------------------------------------------------
  // File names: delete every character of one fixed class.
  // ---------------------------------------------------------------------

  /** The character class of the file-name pattern: backslash, slash,
      asterisk, question mark, colon, double quote, angle brackets and bar. */
  predicate IsIllegalFilenameChar(c: char) {
    c == '\\' || c == '/' || c == '*' || c == '?' || c == ':'
    || c == '"' || c == '<' || c == '>' || c == '|'
  }

  predicate IsLegalFilename(s: string) {
    forall i :: 0 <= i < |s| ==> !IsIllegalFilenameChar(s[i])
  }

  /** Every illegal character is deleted; every other character is kept. */
  function CleanFilename(name: string): (r: string)
    ensures |r| <= |name|
    ensures IsLegalFilename(r)
  {
    if name == [] then []
    else (if IsIllegalFilenameChar(name[0]) then [] else [name[0]]) + CleanFilename(name[1..])
  }

  /** Cleaning works character by character: it distributes over
      concatenation, so the kept characters stay in their original order. */
  lemma {:induction false} CleanFilenameAppend(a: string, b: string)
    ensures CleanFilename(a + b) == CleanFilename(a) + CleanFilename(b)
  {
    if a != [] {
      assert (a + b)[1..] == a[1..] + b;
      CleanFilenameAppend(a[1..], b);
    } else {
      assert a + b == b;
    }
  }

  /** A name is left unchanged exactly when it holds no illegal character. */
  lemma {:induction false} CleanFilenameFixpoint(name: string)
    ensures CleanFilename(name) == name <==> IsLegalFilename(name)
  {
    if name != [] {
      CleanFilenameFixpoint(name[1..]);
      if !IsIllegalFilenameChar(name[0]) {
        assert IsLegalFilename(name) <==> IsLegalFilename(name[1..]) by {
          if IsLegalFilename(name[1..]) {
            forall i | 0 <= i < |name| ensures !IsIllegalFilenameChar(name[i]) {
              if i > 0 { assert name[i] == name[1..][i - 1]; }
            }
          }
        }
      } else {
        assert |CleanFilename(name)| < |name|;
      }
    }
  }

  /** Cleaning twice is cleaning once. */
  lemma CleanFilenameIdempotent(name: string)
    ensures CleanFilename(CleanFilename(name)) == CleanFilename(name)
  {
    CleanFilenameFixpoint(CleanFilename(name));
  }

  /** Counted per character: an illegal character never survives, any
      other character occurs as often in the result as in the input. */
  lemma {:induction false} CleanFilenameCounts(name: string, c: char)
    ensures multiset(CleanFilename(name))[c] == if IsIllegalFilenameChar(c) then 0 else multiset(name)[c]
  {
    if name != [] {
      CleanFilenameCounts(name[1..], c);
      assert name == [name[0]] + name[1..];
    }
  }

  // ---------------------------------------------------------------------
  // Citation markers: delete each bracketed run of digits.
  // ---------------------------------------------------------------------

  /** A whole citation marker: `[`, one or more digits, `]`. */
  predicate IsMarker(m: string) {
    && |m| >= 3
    && m[0] == '['
    && m[|m| - 1] == ']'
    && forall i :: 1 <= i < |m| - 1 ==> IsDigit(m[i])
  }

  /** No infix of `s` is a citation marker. */
  predicate MarkerFree(s: string) {
    forall i, j :: 0 <= i < j <= |s| ==> !IsMarker(s[i..j])
  }

  /** Length of the leading run of digits of `s` (what greedy `\d+` eats). */
  function DigitRun(s: string): (n: nat)
    ensures n <= |s|
    ensures forall i :: 0 <= i < n ==> IsDigit(s[i])
    ensures n < |s| ==> !IsDigit(s[n])
  {
    if s != [] && IsDigit(s[0]) then 1 + DigitRun(s[1..]) else 0
  }

  /** A digit run that ends at a non-digit has exactly that length. */
  lemma {:induction false} DigitRunExact(t: string, m: nat)
    requires m < |t|
    requires forall i :: 0 <= i < m ==> IsDigit(t[i])
    requires !IsDigit(t[m])
    ensures DigitRun(t) == m
  {
    if m > 0 {
      assert forall i :: 0 <= i < m - 1 ==> t[1..][i] == t[i + 1];
      DigitRunExact(t[1..], m - 1);
    }
  }

  /** A marker that is a prefix of `s` is as long as the digit run after
      its bracket, plus the two brackets. */
  lemma MarkerPrefixLength(s: string, k: nat)
    requires 0 < k <= |s| && IsMarker(s[..k])
    ensures DigitRun(s[1..]) == k - 2 && s[k - 1] == ']'
  {
    assert forall i :: 0 <= i < k - 2 ==> s[1..][i] == s[..k][i + 1];
    assert s[1..][k - 2] == s[..k][k - 1];
    DigitRunExact(s[1..], k - 2);
  }

  /** The length of the citation-marker match anchored at the start of `s`, or 0
      when the pattern does not match there. A match, when there is one, is
      the only marker that is a prefix of `s`. */
  function MarkerAt(s: string): (n: nat)
    ensures n == 0 || (3 <= n <= |s| && IsMarker(s[..n]))
    ensures forall k :: 0 < k <= |s| && IsMarker(s[..k]) ==> k == n
  {
    if |s| >= 3 && s[0] == '[' then
      var d := DigitRun(s[1..]);
      assert forall k :: 0 < k <= |s| && IsMarker(s[..k]) ==> DigitRun(s[1..]) == k - 2 && s[k - 1] == ']' by {
        forall k | 0 < k <= |s| && IsMarker(s[..k]) {
          MarkerPrefixLength(s, k);
        }
      }
      if d >= 1 && d + 1 < |s| && s[d + 1] == ']' then
        assert forall i :: 0 <= i < d ==> s[..d + 2][i + 1] == s[1..][i];
        d + 2
      else
        0
    else
      0
  }

  /** The single left-to-right pass of the substitution: at each position either the
      marker that starts there is deleted and scanning resumes after it, or
      the character is kept and scanning resumes at the next one. */
  function RemoveReferences(s: string): (r: string)
    ensures |r| <= |s|
    decreases |s|
  {
    if s == [] then []
    else
      var m := MarkerAt(s);
      if m > 0 then RemoveReferences(s[m..]) else [s[0]] + RemoveReferences(s[1..])
  }

  /** A marker at the front of the text is deleted whole. */
  lemma DropsLeadingMarker(m: string, rest: string)
    requires IsMarker(m)
    ensures RemoveReferences(m + rest) == RemoveReferences(rest)
  {
    var s := m + rest;
    assert s[..|m|] == m;
    assert MarkerAt(s) == |m|;
    assert s[|m|..] == rest;
  }

  /** Text without an opening bracket is copied unchanged, whatever follows. */
  lemma {:induction false} KeepsPlainPrefix(plain: string, rest: string)
    requires '[' !in plain
    ensures RemoveReferences(plain + rest) == plain + RemoveReferences(rest)
  {
    if plain != [] {
      var s := plain + rest;
      assert s[0] == plain[0];
      assert s[1..] == plain[1..] + rest;
      KeepsPlainPrefix(plain[1..], rest);
    } else {
      assert plain + rest == rest;
    }
  }

  /** Where no marker starts, the first character is kept and scanning
      resumes at the next one: a `[` that opens no marker survives. With
      `DropsLeadingMarker` this fixes the pass at every position. */
  lemma KeepsUnmatchedFront(s: string)
    requires s != []
    requires forall k :: 0 < k <= |s| ==> !IsMarker(s[..k])
    ensures RemoveReferences(s) == [s[0]] + RemoveReferences(s[1..])
  {
    assert MarkerAt(s) == 0;
  }

  /** An opening bracket followed by a marker: the bracket is kept and the
      marker deleted. */
  lemma UnmatchedBracketKept()
    ensures RemoveReferences("[[1]") == "["
  {
    var s := "[[1]";
    assert s[1..] == "[1]" + "";
    DropsLeadingMarker("[1]", "");
    KeepsUnmatchedFront(s);
  }

  /** Marker-freedom, one position at a time: no marker starts at the
      front, and the rest is marker-free. */
  lemma MarkerFreeStep(s: string)
    requires s != []
    ensures MarkerFree(s) <==> MarkerAt(s) == 0 && MarkerFree(s[1..])
  {
    if MarkerAt(s) == 0 && MarkerFree(s[1..]) {
      forall i, j | 0 <= i < j <= |s| ensures !IsMarker(s[i..j]) {
        if i == 0 {
          assert s[i..j] == s[..j];
        } else {
          assert s[i..j] == s[1..][i - 1..j - 1];
        }
      }
    }
    if MarkerFree(s) {
      var m := MarkerAt(s);
      assert s[0..m] == s[..m];
      forall i, j | 0 <= i < j <= |s| - 1 ensures !IsMarker(s[1..][i..j]) {
        assert s[1..][i..j] == s[i + 1..j + 1];
      }
    }
  }

  /** The text is returned unchanged exactly when it contains no marker. */
  lemma {:induction false} UnchangedIffMarkerFree(s: string)
    ensures RemoveReferences(s) == s <==> MarkerFree(s)
    decreases |s|
  {
    if s != [] {
      MarkerFreeStep(s);
      var m := MarkerAt(s);
      if m > 0 {
        assert |RemoveReferences(s[m..])| <= |s| - m;
      } else {
        UnchangedIffMarkerFree(s[1..]);
        assert s == [s[0]] + s[1..];
      }
    }
  }

  /** The pass is not a closure: deleting an inner marker can expose an outer
      one, so the result may still hold a marker and a second pass changes it. */
  lemma NestedMarkerSurvives()
    ensures RemoveReferences("[[1]1]") == "[1]"
    ensures IsMarker("[1]")
    ensures RemoveReferences(RemoveReferences("[[1]1]")) != RemoveReferences("[[1]1]")
  {
    var s := "[[1]1]";
    assert MarkerAt(s) == 0;
    assert s[1..] == "[1]" + "1]";
    DropsLeadingMarker("[1]", "1]");
    KeepsPlainPrefix("1]", "");
    assert "[1]" == "[1]" + "";
    DropsLeadingMarker("[1]", "");
  }

  /** Only brackets and digits can ever be deleted. */
  predicate IsMarkerChar(c: char) {
    c == '[' || c == ']' || IsDigit(c)
  }

  /** The characters that are not brackets or digits, in order. */
  function Prose(s: string): (r: string)
    ensures forall i :: 0 <= i < |r| ==> !IsMarkerChar(r[i])
  {
    if s == [] then []
    else (if IsMarkerChar(s[0]) then [] else [s[0]]) + Prose(s[1..])
  }

  lemma {:induction false} ProseAppend(a: string, b: string)
    ensures Prose(a + b) == Prose(a) + Prose(b)
  {
    if a != [] {
      assert (a + b)[1..] == a[1..] + b;
      ProseAppend(a[1..], b);
    } else {
      assert a + b == b;
    }
  }

  lemma {:induction false} ProseOfMarkerChars(s: string)
    requires forall i :: 0 <= i < |s| ==> IsMarkerChar(s[i])
    ensures Prose(s) == []
  {
    if s != [] {
      ProseOfMarkerChars(s[1..]);
    }
  }

  /** Every character other than a bracket or a digit survives, in order:
      the text around the markers is never touched. */
  lemma {:induction false} KeepsProse(s: string)
    ensures Prose(RemoveReferences(s)) == Prose(s)
    decreases |s|
  {
    if s != [] {
      var m := MarkerAt(s);
      if m > 0 {
        KeepsProse(s[m..]);
        assert s == s[..m] + s[m..];
        ProseAppend(s[..m], s[m..]);
        ProseOfMarkerChars(s[..m]);
      } else {
        KeepsProse(s[1..]);
        ProseAppend([s[0]], RemoveReferences(s[1..]));
        ProseAppend([s[0]], s[1..]);
        assert s == [s[0]] + s[1..];
      }
    }
  }
}

=== FILE: download.dfy ===
/** `download_page`: decide, for one fetched article, whether to skip it or
    to write its Markdown file, and the batch of such downloads that one
    index page dispatches. The save directory is a map from file name to
    file content. */
module Download {
  import opened Wrappers
  import opened Strings
  import opened Cleaning
  import opened Markdown

  /** What requesting and parsing one article URL gave: an exception with
      its text, or the text of the page's title heading and its article
      content subtree, either of which may be absent. */
  datatype Page =
    | Unreachable(reason: string)
    | Parsed(titleText: Option<string>, content: Option<Node>)

  datatype Outcome =
    | Downloaded(title: string)
    | SkippedExisting(title: string)
    | SkippedMissingContent(url: string)
    | Failed(url: string, reason: string)

  /** The string `download_page` returns for each outcome. */
  function Message(o: Outcome): string {
    match o
    case Downloaded(t) => "Downloaded: " + t
    case SkippedExisting(t) => "Skipped (already exists): " + t
    case SkippedMissingContent(u) => "Skipped (missing content): " + u
    case Failed(u, e) => "Error downloading " + u + ": " + e
  }

  /** The returned string tells which outcome it reports, and, except for
      an error, about which title or URL. */
  lemma MessageTellsOutcome(o1: Outcome, o2: Outcome)
    requires Message(o1) == Message(o2)
    ensures o1.Downloaded? == o2.Downloaded? && o1.SkippedExisting? == o2.SkippedExisting?
    ensures o1.SkippedMissingContent? == o2.SkippedMissingContent? && o1.Failed? == o2.Failed?
    ensures !o1.Failed? ==> o1 == o2
  {
    var m := Message(o1);
    KindLetters(o1);
    KindLetters(o2);
    if !o1.Failed? && !o2.Failed? {
      var k := |Message(o1)| - |Subject(o1)|;
      assert k == |Message(o2)| - |Subject(o2)|;
      assert Subject(o1) == m[k..] == Subject(o2);
    }
  }

  /** The title or URL a non-error message is about. */
  function Subject(o: Outcome): string
    requires !o.Failed?
  {
    if o.Downloaded? || o.SkippedExisting? then o.title else o.url
  }

  /** The first and tenth characters of a message, which differ between the
      four outcomes, and where a non-error message's subject starts. */
  lemma KindLetters(o: Outcome)
    ensures |Message(o)| > 10
    ensures Message(o)[0] == (if o.Downloaded? then 'D' else if o.Failed? then 'E' else 'S')
    ensures o.SkippedExisting? ==> Message(o)[9] == 'a'
    ensures o.SkippedMissingContent? ==> Message(o)[9] == 'm'
    ensures !o.Failed? ==> Message(o) == Message(o)[..|Message(o)| - |Subject(o)|] + Subject(o)
    ensures o.Downloaded? ==> |Message(o)| - |Subject(o)| == 12
    ensures o.SkippedExisting? ==> |Message(o)| - |Subject(o)| == 26
    ensures o.SkippedMissingContent? ==> |Message(o)| - |Subject(o)| == 27
  {
  }

  /** File name in the save directory -> file content. */
  type Store = map<string, string>

  const Extension := ".md"

  /** The cleaned title followed by the Markdown extension. */
  function FileName(title: string): (name: string)
    ensures |name| >= |Extension| && name[|name| - |Extension|..] == Extension
    ensures IsLegalFilename(name)
  {
    var stem := CleanFilename(title);
    assert (stem + Extension)[|stem|..] == Extension;
    stem + Extension
  }

  /** The file body: a level-one heading with the title, a blank line, then
      the converted content. */
  function Document(title: string, content: Node): string {
    "# " + title + "\n\n" + ToMarkdown(content)
  }

  /** The first line of a text: everything before its first newline. */
  function FirstLine(s: string): (line: string)
    ensures line <= s && '\n' !in line
    ensures |line| < |s| ==> s[|line|] == '\n'
  {
    if s == [] || s[0] == '\n' then [] else [s[0]] + FirstLine(s[1..])
  }

  /** A saved file opens with the title heading on a line of its own, so
      the title can be read back from it. */
  lemma DocumentHeading(title: string, content: Node)
    requires '\n' !in title
    ensures FirstLine(Document(title, content)) == "# " + title
  {
    var d := Document(title, content);
    var line := FirstLine(d);
    var n := |title| + 2;
    assert d[..n] == "# " + title;
    assert forall i :: 0 <= i < n ==> d[i] != '\n';
    assert d[n] == '\n';
    assert line == d[..n];
  }

  datatype Result = Result(outcome: Outcome, store: Store)

  /** Files already in the store keep their content. */
  predicate Preserves(before: Store, after: Store) {
    forall name :: name in before ==> name in after && after[name] == before[name]
  }

  /** The page parsed and has both a title and content. */
  predicate HasArticle(page: Page) {
    page.Parsed? && page.titleText.Some? && page.content.Some?
  }

  /** The title an article is saved under: its title text, stripped. */
  function Title(page: Page): string
    requires HasArticle(page)
  {
    Strip(page.titleText.value)
  }

  /** The write step for a page that has both a title and content: skip
      when the file exists, otherwise add it. */
  function Save(title: string, content: Node, store: Store): (r: Result)
    ensures r.outcome == Downloaded(title) || r.outcome == SkippedExisting(title)
    ensures r.outcome.Downloaded? <==> FileName(title) !in store
    ensures r.outcome.Downloaded? ==> r.store == store[FileName(title) := Document(title, content)]
    ensures !r.outcome.Downloaded? ==> r.store == store
    ensures Preserves(store, r.store)
    ensures r.outcome.Downloaded? ==> r.store.Keys == store.Keys + {FileName(title)}
  {
    var name := FileName(title);
    if name in store then Result(SkippedExisting(title), store)
    else Result(Downloaded(title), store[name := Document(title, content)])
  }

  function DownloadPage(url: string, page: Page, store: Store): (r: Result)
    ensures Preserves(store, r.store)
    ensures !r.outcome.Downloaded? ==> r.store == store
    ensures r.outcome.Downloaded? ==>
              && FileName(r.outcome.title) !in store
              && r.store.Keys == store.Keys + {FileName(r.outcome.title)}
    ensures page.Unreachable? ==> r.outcome == Failed(url, page.reason)
    ensures page.Parsed? && (page.titleText.None? || page.content.None?) ==>
              r.outcome == SkippedMissingContent(url)
  {
    match page
    case Unreachable(e) => Result(Failed(url, e), store)
    case Parsed(titleText, content) =>
      if titleText.None? || content.None? then
        Result(SkippedMissingContent(url), store)
      else
        Save(Strip(titleText.value), content.value, store)
  }

  /** A page with a title and content whose file is not there yet is written
      under its cleaned, stripped title, with exactly the document body;
      nothing else in the directory changes. */
  lemma WritesNewFile(url: string, text: string, content: Node, store: Store)
    requires FileName(Strip(text)) !in store
    ensures DownloadPage(url, Parsed(Some(text), Some(content)), store)
            == Result(Downloaded(Strip(text)),
                      store[FileName(Strip(text)) := Document(Strip(text), content)])
  {
  }

  /** A page whose file is already there is skipped without a write. */
  lemma SkipsExistingFile(url: string, text: string, content: Node, store: Store)
    requires FileName(Strip(text)) in store
    ensures DownloadPage(url, Parsed(Some(text), Some(content)), store)
            == Result(SkippedExisting(Strip(text)), store)
  {
  }

  /** Re-running a download against the directory it produced changes
      nothing: a page that was written is now skipped as existing, any other
      outcome repeats, and the file content is the same. */
  lemma DownloadIdempotent(url: string, page: Page, store: Store)
    ensures var first := DownloadPage(url, page, store);
            var second := DownloadPage(url, page, first.store);
            && second.store == first.store
            && (first.outcome.Downloaded? ==> second.outcome == SkippedExisting(first.outcome.title))
            && (!first.outcome.Downloaded? ==> second.outcome == first.outcome)
  {
  }

  /** Cleaning is not injective: two different titles can share a file. */
  lemma CollidingTitles()
    ensures FileName("AC/DC") == FileName("ACDC")
  {
    assert CleanFilename("AC/DC") == "ACDC" by {
      assert "AC/DC" == "AC" + ("/" + "DC");
      CleanFilenameAppend("AC", "/" + "DC");
      CleanFilenameAppend("/", "DC");
      CleanFilenameFixpoint("AC");
      CleanFilenameFixpoint("DC");
      assert CleanFilename("/") == [];
    }
    CleanFilenameFixpoint("ACDC");
  }

  /** When two titles clean to the same file name, the second article is
      reported as already existing and never written; `CollidingTitles`
      shows two different titles for which this happens. */
  lemma TitleCollision(url1: string, text1: string, content1: Node,
                       url2: string, text2: string, content2: Node, store: Store)
    requires FileName(Strip(text1)) == FileName(Strip(text2))
    requires FileName(Strip(text1)) !in store
    ensures var first := DownloadPage(url1, Parsed(Some(text1), Some(content1)), store);
            var second := DownloadPage(url2, Parsed(Some(text2), Some(content2)), first.store);
            && first.outcome == Downloaded(Strip(text1))
            && second.outcome == SkippedExisting(Strip(text2))
            && second.store == first.store
  {
  }

  // ---------------------------------------------------------------------
  // The batch of downloads dispatched for one index page.
  // ---------------------------------------------------------------------

  datatype Job = Job(url: string, page: Page)

  datatype Batch = Batch(outcomes: seq<Outcome>, store: Store)

  function CountDownloaded(outcomes: seq<Outcome>): (n: nat)
    ensures n <= |outcomes|
  {
    if outcomes == [] then 0
    else (if outcomes[0].Downloaded? then 1 else 0) + CountDownloaded(outcomes[1..])
  }

  /** What a job's outcome can be, given the files after its batch: an
      exception is reported with its text, a page without a title or content
      as missing content, and an article as downloaded or as existing under
      its title, whose file is then present. */
  predicate Reported(job: Job, o: Outcome, after: Store) {
    match job.page
    case Unreachable(e) => o == Failed(job.url, e)
    case Parsed(_, _) =>
      if HasArticle(job.page) then
        && (o == Downloaded(Title(job.page)) || o == SkippedExisting(Title(job.page)))
        && FileName(Title(job.page)) in after
      else o == SkippedMissingContent(job.url)
  }

  /** The downloads of one batch run one after another in submission order,
      each seeing the files the earlier ones wrote. Every job gets an
      outcome, a failing job does not stop the others, and no existing file
      is overwritten. */
  function Dispatch(jobs: seq<Job>, store: Store): (b: Batch)
    ensures |b.outcomes| == |jobs|
    ensures Preserves(store, b.store)
  {
    if jobs == [] then Batch([], store)
    else
      var first := DownloadPage(jobs[0].url, jobs[0].page, store);
      var rest := Dispatch(jobs[1..], first.store);
      Batch([first.outcome] + rest.outcomes, rest.store)
  }

  /** Every job of a batch is reported for what its page holds: the error
      of an unreachable page, "missing content" for a page without title or
      content, and otherwise a download or a skip of its stripped title,
      whose file is in the directory once the batch has run. */
  lemma {:induction false} DispatchReports(jobs: seq<Job>, store: Store)
    ensures var b := Dispatch(jobs, store);
            forall i :: 0 <= i < |jobs| ==> Reported(jobs[i], b.outcomes[i], b.store)
  {
    if jobs != [] {
      var first := DownloadPage(jobs[0].url, jobs[0].page, store);
      var rest := Dispatch(jobs[1..], first.store);
      DispatchReports(jobs[1..], first.store);
      DownloadReported(jobs[0], store, rest.store);
      ReportedCons(jobs, first.outcome, rest.outcomes, rest.store);
    }
  }

  /** A single download is reported as `Reported` describes, against any
      later files that keep the ones it left. */
  lemma DownloadReported(job: Job, store: Store, after: Store)
    requires Preserves(DownloadPage(job.url, job.page, store).store, after)
    ensures Reported(job, DownloadPage(job.url, job.page, store).outcome, after)
  {
    match job.page
    case Unreachable(_) =>
    case Parsed(t, c) =>
      if t.Some? && c.Some? {
        var title := Strip(t.value);
        var r := Save(title, c.value, store);
        assert DownloadPage(job.url, job.page, store) == r;
        assert FileName(title) in r.store;
        assert FileName(title) in after;
      }
  }

  lemma ReportedCons(jobs: seq<Job>, o: Outcome, outcomes: seq<Outcome>, after: Store)
    requires jobs != [] && |outcomes| == |jobs| - 1
    requires Reported(jobs[0], o, after)
    requires forall i :: 0 <= i < |jobs| - 1 ==> Reported(jobs[1..][i], outcomes[i], after)
    ensures forall i :: 0 <= i < |jobs| ==> Reported(jobs[i], ([o] + outcomes)[i], after)
  {
    forall i | 1 <= i < |jobs| ensures Reported(jobs[i], ([o] + outcomes)[i], after) {
      assert jobs[i] == jobs[1..][i - 1];
    }
  }

  /** Every download of a batch adds exactly one new file, and nothing else
      adds any. */
  lemma {:induction false} DispatchCount(jobs: seq<Job>, store: Store)
    ensures var b := Dispatch(jobs, store);
            |b.store| == |store| + CountDownloaded(b.outcomes)
  {
    if jobs != [] {
      var first := DownloadPage(jobs[0].url, jobs[0].page, store);
      var rest := Dispatch(jobs[1..], first.store);
      DispatchCount(jobs[1..], first.store);
      assert |first.store| == |store| + (if first.outcome.Downloaded? then 1 else 0);
      assert ([first.outcome] + rest.outcomes)[1..] == rest.outcomes;
    }
  }

  /** The batch is the downloads run one after another: the i-th job gets
      the outcome its download has against the files the first i jobs left. */
  lemma DispatchInOrder(jobs: seq<Job>, store: Store, i: nat)
    requires i < |jobs|
    ensures Dispatch(jobs, store).outcomes[i]
            == DownloadPage(jobs[i].url, jobs[i].page, Dispatch(jobs[..i], store).store).outcome
  {
    var before := Dispatch(jobs[..i], store);
    assert jobs[..i] + jobs[i..] == jobs;
    DispatchSplit(jobs[..i], jobs[i..], store);
    DispatchCons(jobs[i..], before.store, 0);
  }

  /** A batch can be cut anywhere: running `a + b` is running `a`, then `b`
      against the files `a` left. */
  lemma {:induction false} DispatchSplit(a: seq<Job>, b: seq<Job>, store: Store)
    ensures var first := Dispatch(a, store);
            var second := Dispatch(b, first.store);
            Dispatch(a + b, store) == Batch(first.outcomes + second.outcomes, second.store)
  {
    if a != [] {
      var after := DownloadPage(a[0].url, a[0].page, store).store;
      assert (a + b)[0] == a[0] && (a + b)[1..] == a[1..] + b;
      DispatchSplit(a[1..], b, after);
      var rest := Dispatch(a[1..], after);
      var second := Dispatch(b, rest.store);
      assert ([DownloadPage(a[0].url, a[0].page, store).outcome] + rest.outcomes) + second.outcomes
          == [DownloadPage(a[0].url, a[0].page, store).outcome] + (rest.outcomes + second.outcomes);
    } else {
      assert [] + b == b;
    }
  }

  /** One step of a batch: the first download, then the rest of the batch
      against the files it left; the i-th outcome, for i past the first, is
      the rest's (i - 1)-th. */
  lemma DispatchCons(jobs: seq<Job>, store: Store, i: nat)
    requires i < |jobs|
    ensures var first := DownloadPage(jobs[0].url, jobs[0].page, store);
            var rest := Dispatch(jobs[1..], first.store);
            && Dispatch(jobs, store).store == rest.store
            && (0 < i ==> Dispatch(jobs, store).outcomes[i] == rest.outcomes[i - 1])
  {
  }

  /** Once a batch has run against a directory, running it again against
      the result writes nothing. */
  lemma {:induction false} DispatchNoNewFiles(jobs: seq<Job>, store: Store, after: Store)
    requires after == Dispatch(jobs, store).store
    ensures Dispatch(jobs, after).store == after
    ensures CountDownloaded(Dispatch(jobs, after).outcomes) == 0
  {
    if jobs != [] {
      var first := DownloadPage(jobs[0].url, jobs[0].page, store);
      var again := DownloadPage(jobs[0].url, jobs[0].page, after);
      DispatchNoNewFiles(jobs[1..], first.store, after);
      match jobs[0].page
      case Unreachable(_) =>
      case Parsed(t, c) =>
        if t.Some? && c.Some? {
          var name := FileName(Strip(t.value));
          assert name in first.store;
          assert name in after;
        }
      assert again.store == after;
      assert CountDownloaded([again.outcome] + Dispatch(jobs[1..], after).outcomes) == 0 by {
        assert ([again.outcome] + Dispatch(jobs[1..], after).outcomes)[1..] == Dispatch(jobs[1..], after).outcomes;
      }
    }
  }
}

=== FILE: markdown.dfy ===
/** `html_to_markdown`: a structurally recursive conversion of a parsed HTML
    tree into Markdown text, driven by a closed table of tag rules. */
module Markdown {
  import opened Strings
  import opened Cleaning

  /** A node of the parsed tree. `Text` is any string node of the parser
      (its tag name is `None`); `Element` is a tag with its lower-case name
      and its children in document order. */
  datatype Node = Text(text: string) | Element(tag: string, children: seq<Node>)

  /** `h2` .. `h6`; `h1` and any other `h…` are not heading rules. */
  predicate IsHeadingTag(tag: string) {
    |tag| == 2 && tag[0] == 'h' && '2' <= tag[1] <= '6'
  }

  /** A list-item element: the kind of direct child a list selects. */
  predicate IsListItem(n: Node) {
    n.Element? && n.tag == "li"
  }

  /** The tags that have a rule of their own; everything else passes its
      children through. */
  predicate HasRule(tag: string) {
    tag == "p" || IsHeadingTag(tag) || tag == "a" || tag == "ul" || tag == "ol" || tag == "img"
  }

  /** The heading tag of level `level`, e.g. `h3`. */
  function HeadingTag(level: nat): string
    requires 2 <= level <= 6
  {
    ['h', DigitChar(level)]
  }

  /** `html_to_markdown`: text loses its citation markers, a link its
      surrounding whitespace. */
  function ToMarkdown(n: Node): (r: string)
    ensures n.Text? ==> |r| <= |n.text|
    ensures n.Element? && n.tag == "a" && r != [] ==> !IsSpace(r[0]) && !IsSpace(r[|r| - 1])
  {
    match n
    case Text(t) => RemoveReferences(t)
    case Element(tag, kids) =>
      if tag == "p" then "\n\n" + Children(kids) + "\n\n"
      else if IsHeadingTag(tag) then "\n" + Repeat('#', DigitValue(tag[1])) + " " + Children(kids) + "\n"
      else if tag == "a" then Strip(Children(kids))
      else if tag == "ul" then "\n" + Bullets(kids)
      else if tag == "ol" then "\n" + Numbered(kids, 1)
      else if tag == "img" then ""
      else Children(kids)
  }

  /** The converted children, concatenated left to right. */
  function Children(kids: seq<Node>): string {
    if kids == [] then [] else ToMarkdown(kids[0]) + Children(kids[1..])
  }

  /** One `- item` line per direct `li` child. */
  function Bullets(kids: seq<Node>): string {
    if kids == [] then []
    else if IsListItem(kids[0]) then "- " + ToMarkdown(kids[0]) + "\n" + Bullets(kids[1..])
    else Bullets(kids[1..])
  }

  /** One `k. item` line per direct `li` child, numbered from `next`. */
  function Numbered(kids: seq<Node>, next: nat): string {
    if kids == [] then []
    else if IsListItem(kids[0]) then
      NatToString(next) + ". " + ToMarkdown(kids[0]) + "\n" + Numbered(kids[1..], next + 1)
    else Numbered(kids[1..], next)
  }

  // ---------------------------------------------------------------------
  // Reference definitions: the generator expressions of the source, as
  // sequences, and the rule table stated against them.
  // ---------------------------------------------------------------------

  /** Each node converted on its own, in order. */
  function Converted(nodes: seq<Node>): (r: seq<string>)
    ensures |r| == |nodes|
    ensures forall i :: 0 <= i < |nodes| ==> r[i] == ToMarkdown(nodes[i])
  {
    seq(|nodes|, i requires 0 <= i < |nodes| => ToMarkdown(nodes[i]))
  }

  /** The direct `li` children of an element, in order; deeper list items
      are not selected. */
  function ListItems(kids: seq<Node>): (items: seq<Node>)
    ensures |items| <= |kids|
    ensures forall i :: 0 <= i < |items| ==> IsListItem(items[i]) && items[i] in kids
  {
    if kids == [] then []
    else if IsListItem(kids[0]) then [kids[0]] + ListItems(kids[1..])
    else ListItems(kids[1..])
  }

  function BulletLines(items: seq<Node>): (r: seq<string>)
    ensures |r| == |items|
  {
    seq(|items|, i requires 0 <= i < |items| => "- " + ToMarkdown(items[i]) + "\n")
  }

  /** One line per item: its number, a dot and a space, the converted item
      and a newline, numbering from `first`. */
  function NumberedLines(items: seq<Node>, first: nat): (r: seq<string>)
    ensures |r| == |items|
  {
    seq(|items|, i requires 0 <= i < |items| => NatToString(first + i) + ". " + ToMarkdown(items[i]) + "\n")
  }

  /** Dropping the first item renumbers the rest from the next number. */
  lemma NumberedLinesTail(items: seq<Node>, first: nat)
    requires items != []
    ensures NumberedLines(items, first)[1..] == NumberedLines(items[1..], first + 1)
  {
    var a := NumberedLines(items, first)[1..];
    var b := NumberedLines(items[1..], first + 1);
    forall j | 0 <= j < |a| ensures a[j] == b[j] {
      assert first + (j + 1) == (first + 1) + j;
    }
  }

  /** The children of every element are converted one by one and joined in
      document order, with nothing added between them. */
  lemma {:induction false} ChildrenInOrder(kids: seq<Node>)
    ensures Children(kids) == Concat(Converted(kids))
  {
    if kids != [] {
      assert Converted(kids)[1..] == Converted(kids[1..]);
      ChildrenInOrder(kids[1..]);
    }
  }

  /** Rule for string nodes: the text with its citation markers removed. */
  lemma TextRule(t: string)
    ensures ToMarkdown(Text(t)) == RemoveReferences(t)
    ensures MarkerFree(t) ==> ToMarkdown(Text(t)) == t
  {
    UnchangedIffMarkerFree(t);
  }

  /** Rule for `p`: a blank line before and after the children; an empty
      paragraph still yields four newlines. */
  lemma ParagraphRule(kids: seq<Node>)
    ensures ToMarkdown(Element("p", kids)) == "\n\n" + Concat(Converted(kids)) + "\n\n"
    ensures kids == [] ==> ToMarkdown(Element("p", kids)) == "\n\n\n\n"
  {
    ChildrenInOrder(kids);
  }

  /** Rule for `h2` .. `h6`: a line holding exactly `level` hashes, one space
      and the children. */
  lemma HeadingRule(level: nat, kids: seq<Node>)
    requires 2 <= level <= 6
    ensures ToMarkdown(Element(HeadingTag(level), kids))
            == "\n" + Repeat('#', level) + " " + Concat(Converted(kids)) + "\n"
  {
    ChildrenInOrder(kids);
    var tag := HeadingTag(level);
    assert IsHeadingTag(tag) && DigitValue(tag[1]) == level;
  }

  /** Rule for `a`: the children stripped of surrounding whitespace; a link
      whose children are whitespace only disappears. */
  lemma LinkRule(kids: seq<Node>)
    ensures ToMarkdown(Element("a", kids)) == Strip(Concat(Converted(kids)))
    ensures ToMarkdown(Element("a", kids)) == [] <==> AllSpace(Concat(Converted(kids)))
  {
    ChildrenInOrder(kids);
  }

  lemma {:induction false} BulletsSpec(kids: seq<Node>)
    ensures Bullets(kids) == Concat(BulletLines(ListItems(kids)))
  {
    if kids != [] {
      BulletsSpec(kids[1..]);
      var items := ListItems(kids);
      if IsListItem(kids[0]) {
        var lines := BulletLines(items);
        assert items == [kids[0]] + ListItems(kids[1..]);
        assert lines[0] == "- " + ToMarkdown(kids[0]) + "\n";
        assert lines[1..] == BulletLines(ListItems(kids[1..]));
        assert Concat(lines) == lines[0] + Concat(lines[1..]);
      } else {
        assert items == ListItems(kids[1..]);
      }
    }
  }

  lemma {:induction false} NumberedSpec(kids: seq<Node>, first: nat)
    ensures Numbered(kids, first) == Concat(NumberedLines(ListItems(kids), first))
  {
    if kids != [] {
      var items := ListItems(kids);
      if IsListItem(kids[0]) {
        NumberedSpec(kids[1..], first + 1);
        var lines := NumberedLines(items, first);
        assert items == [kids[0]] + ListItems(kids[1..]);
        assert lines[0] == NatToString(first) + ". " + ToMarkdown(kids[0]) + "\n";
        NumberedLinesTail(items, first);
        assert Concat(lines) == lines[0] + Concat(lines[1..]);
      } else {
        NumberedSpec(kids[1..], first);
        assert items == ListItems(kids[1..]);
      }
    }
  }

  /** Rule for `ul`: a newline, then one `- ` line per direct `li` child. */
  lemma UnorderedListRule(kids: seq<Node>)
    ensures ToMarkdown(Element("ul", kids)) == "\n" + Concat(BulletLines(ListItems(kids)))
  {
    BulletsSpec(kids);
  }

  /** Rule for `ol`: a newline, then one line per direct `li` child,
      prefixed with its 1-based position among those children. */
  lemma OrderedListRule(kids: seq<Node>)
    ensures ToMarkdown(Element("ol", kids)) == "\n" + Concat(NumberedLines(ListItems(kids), 1))
  {
    NumberedSpec(kids, 1);
  }

  lemma {:induction false} ListItemsIdempotent(kids: seq<Node>)
    ensures ListItems(ListItems(kids)) == ListItems(kids)
  {
    if kids != [] {
      ListItemsIdempotent(kids[1..]);
      if IsListItem(kids[0]) {
        assert ([kids[0]] + ListItems(kids[1..]))[1..] == ListItems(kids[1..]);
      }
    }
  }

  /** A single child is selected exactly when it is a list item. */
  lemma ListItemsSingle(n: Node)
    ensures ListItems([n]) == if IsListItem(n) then [n] else []
  {
    assert [n][1..] == [];
  }

  /** The selection distributes over concatenation: every direct `li` child
      is selected, and the selected children keep their order. */
  lemma {:induction false} ListItemsAppend(a: seq<Node>, b: seq<Node>)
    ensures ListItems(a + b) == ListItems(a) + ListItems(b)
  {
    if a == [] {
      assert a + b == b;
    } else {
      assert (a + b)[1..] == a[1..] + b;
      ListItemsAppend(a[1..], b);
      if IsListItem(a[0]) {
        assert [a[0]] + ListItems(a[1..]) + ListItems(b) == [a[0]] + (ListItems(a[1..]) + ListItems(b));
      }
    }
  }

  /** Counted per node: a list item is selected as often as it occurs among
      the children, and nothing else is selected. */
  lemma {:induction false} ListItemsCounts(kids: seq<Node>, n: Node)
    ensures multiset(ListItems(kids))[n] == if IsListItem(n) then multiset(kids)[n] else 0
  {
    if kids != [] {
      ListItemsCounts(kids[1..], n);
      assert kids == [kids[0]] + kids[1..];
    }
  }

  /** Direct children of a list that are not `li` elements contribute
      nothing, and do not shift the numbering of those that are. */
  lemma ListIgnoresNonItems(tag: string, kids: seq<Node>)
    requires tag == "ul" || tag == "ol"
    ensures ToMarkdown(Element(tag, kids)) == ToMarkdown(Element(tag, ListItems(kids)))
  {
    ListItemsIdempotent(kids);
    BulletsSpec(kids);
    BulletsSpec(ListItems(kids));
    NumberedSpec(kids, 1);
    NumberedSpec(ListItems(kids), 1);
  }

  lemma {:induction false} ChildrenAppend(a: seq<Node>, b: seq<Node>)
    ensures Children(a + b) == Children(a) + Children(b)
  {
    if a == [] {
      assert a + b == b;
    } else {
      assert (a + b)[1..] == a[1..] + b;
      ChildrenAppend(a[1..], b);
    }
  }

  /** Rule for `img`: nothing, whatever it contains; so an image can be
      deleted from the children of an element without changing what the
      children convert to. */
  lemma ImageRule(img: seq<Node>, before: seq<Node>, after: seq<Node>)
    ensures ToMarkdown(Element("img", img)) == []
    ensures Children(before + [Element("img", img)] + after) == Children(before + after)
  {
    var image := Element("img", img);
    ChildrenAppend(before + [image], after);
    ChildrenAppend(before, [image]);
    ChildrenAppend(before, after);
    assert Children([image]) == ToMarkdown(image) + Children([]);
  }

  /** Every tag without a rule, `h1`, `div` and `li` among them, is a
      transparent container. */
  lemma PassThroughRule(tag: string, kids: seq<Node>)
    requires !HasRule(tag)
    ensures ToMarkdown(Element(tag, kids)) == Concat(Converted(kids))
  {
    ChildrenInOrder(kids);
  }

  /** Under an element whose children are all string nodes, the conversion
      is the concatenation of the children's texts, each with its own
      citation markers removed. */
  lemma {:induction false} TextChildren(kids: seq<Node>)
    requires forall i :: 0 <= i < |kids| ==> kids[i].Text?
    ensures Children(kids) == Concat(seq(|kids|, i requires 0 <= i < |kids| => RemoveReferences(kids[i].text)))
  {
    ChildrenInOrder(kids);
    assert Converted(kids) == seq(|kids|, i requires 0 <= i < |kids| => RemoveReferences(kids[i].text));
  }

  lemma ChildrenSingle(n: Node)
    ensures Children([n]) == ToMarkdown(n)
  {
    assert [n][1..] == [];
  }

  lemma ChildrenPair(a: Node, b: Node)
    ensures Children([a, b]) == ToMarkdown(a) + ToMarkdown(b)
  {
    assert [a, b][1..] == [b];
    ChildrenSingle(b);
  }

  /** A text node without an opening bracket converts to itself. */
  lemma PlainText(t: string)
    requires '[' !in t
    ensures ToMarkdown(Text(t)) == t
  {
    KeepsPlainPrefix(t, "");
    assert t + "" == t;
  }

  /** `li` has no rule of its own: an item converts to its children. */
  lemma ItemIsTransparent(kids: seq<Node>)
    ensures ToMarkdown(Element("li", kids)) == Children(kids)
  {
    assert "li"[0] != "ul"[0] && "li"[0] != "ol"[0] && "li"[0] != "h2"[0];
    assert !HasRule("li");
  }

  lemma PlainItem(t: string)
    requires '[' !in t
    ensures ToMarkdown(Element("li", [Text(t)])) == t
  {
    ItemIsTransparent([Text(t)]);
    ChildrenSingle(Text(t));
    PlainText(t);
  }

  /** An ordered list of two plain items: each on its own line, numbered
      from 1. */
  lemma TwoItemOrderedList(x: string, y: string)
    requires '[' !in x && '[' !in y
    ensures ToMarkdown(Element("ol", [Element("li", [Text(x)]), Element("li", [Text(y)])]))
            == "\n" + ("1. " + x + "\n") + ("2. " + y + "\n")
  {
    var ix := Element("li", [Text(x)]);
    var iy := Element("li", [Text(y)]);
    PlainItem(x);
    PlainItem(y);
    assert Numbered([iy], 2) == "2. " + y + "\n" by {
      assert [iy][1..] == [];
      assert NatToString(2) == "2";
    }
    assert Numbered([ix, iy], 1) == "1. " + x + "\n" + Numbered([iy], 2) by {
      assert [ix, iy][1..] == [iy];
      assert NatToString(1) == "1";
    }
  }

  /** A list nested in a list item is converted in place, on the item's
      line, with its own numbering: the outer item's line ends with the
      inner list's last line, which is followed by the outer line's own
      newline. */
  lemma NestedListExample(a: string, x: string, y: string)
    requires '[' !in a && '[' !in x && '[' !in y
    ensures ToMarkdown(Element("ul", [Element("li", [Text(a), Element("ol", [Element("li", [Text(x)]), Element("li", [Text(y)])])])]))
            == "\n" + ("- " + (a + ("\n" + ("1. " + x + "\n") + ("2. " + y + "\n"))) + "\n")
  {
    var inner := Element("ol", [Element("li", [Text(x)]), Element("li", [Text(y)])]);
    var item := Element("li", [Text(a), inner]);
    assert ToMarkdown(item) == a + ("\n" + ("1. " + x + "\n") + ("2. " + y + "\n")) by {
      TwoItemOrderedList(x, y);
      PlainText(a);
      ItemIsTransparent([Text(a), inner]);
      ChildrenPair(Text(a), inner);
    }
    assert Bullets([item]) == "- " + ToMarkdown(item) + "\n" by {
      assert [item][1..] == [];
    }
  }
}

=== FILE: scrape.dfy ===
/** `scrape_fandom` and `get_and_process_page`: walk the `Special:AllPages`
    index page by page, dispatch the downloads each page lists, and yield the
    cumulative progress log after each page and once more at the end. */
module Scrape {
  import opened Wrappers
  import opened Strings
  import opened Download

  const AllPagesPath := "/wiki/Special:AllPages"
  const CompletedMessage := "Scraping completed!"
  const Newline := "\n"

  /** The site URL without trailing slashes: the prefix every relative link
      is joined to. */
  function BaseUrl(fandomUrl: string): string {
    TrimTrailingSlashes(fandomUrl)
  }

  /** The first index page: the base URL followed by the all-pages path. */
  function AllPagesUrl(fandomUrl: string): (url: string)
    ensures url != []
    ensures url == BaseUrl(fandomUrl) + AllPagesPath
    ensures BaseUrl(fandomUrl) == fandomUrl[..|BaseUrl(fandomUrl)|]
    ensures forall i :: |BaseUrl(fandomUrl)| <= i < |fandomUrl| ==> fandomUrl[i] == '/'
    ensures BaseUrl(fandomUrl) == [] || BaseUrl(fandomUrl)[|BaseUrl(fandomUrl)| - 1] != '/'
  {
    BaseUrl(fandomUrl) + AllPagesPath
  }

  /** Trailing slashes on the site URL make no difference. */
  lemma {:induction false} TrailingSlashIgnored(fandomUrl: string)
    ensures AllPagesUrl(fandomUrl + "/") == AllPagesUrl(fandomUrl)
  {
    var s := fandomUrl + "/";
    assert s[..|s| - 1] == fandomUrl;
  }

  /** What requesting and parsing one index page gave: the `href` of every
      article link in the page's index chunk, and the `href` of the
      next-page link of its navigation block, when there is one. */
  datatype IndexPage = IndexPage(articleHrefs: seq<string>, nextHref: Option<string>)

  /** The site as the crawler sees it through the request and the parser. */
  datatype Site = Site(index: string -> IndexPage, article: string -> Page)

  /** One job per article link: the base URL followed by the link, with the
      page that URL gives. */
  function Jobs(site: Site, base: string, hrefs: seq<string>): (jobs: seq<Job>)
    ensures |jobs| == |hrefs|
    ensures forall i :: 0 <= i < |hrefs| ==>
              jobs[i].url == base + hrefs[i] && jobs[i].page == site.article(jobs[i].url)
  {
    seq(|hrefs|, i requires 0 <= i < |hrefs| => Job(base + hrefs[i], site.article(base + hrefs[i])))
  }

  /** The URL `get_and_process_page` returns for the index page at `url`:
      the next-page link joined to the base URL. With a non-empty base the
      walk goes on exactly when the page has a next-page link. */
  function NextUrl(site: Site, base: string, url: string): (r: Option<string>)
    ensures r.Some? <==> site.index(url).nextHref.Some?
    ensures r.Some? ==> r.value == base + site.index(url).nextHref.value
    ensures base != [] ==> (Continues(r) <==> site.index(url).nextHref.Some?)
  {
    match site.index(url).nextHref
    case None => None
    case Some(href) => Some(base + href)
  }

  /** The loop condition: a missing or empty URL ends the walk. */
  predicate Continues(current: Option<string>) {
    current.Some? && current.value != []
  }

  datatype Walked = Walked(visited: seq<string>, done: bool)

  /** The index pages visited from `current` within `fuel` pages, and whether
      the walk ended there because a page had no usable next link. */
  function Walk(site: Site, base: string, current: Option<string>, fuel: nat): (w: Walked)
    ensures |w.visited| <= fuel
    ensures w.done || |w.visited| == fuel
    ensures forall i :: 0 <= i < |w.visited| ==> w.visited[i] != []
    ensures Continues(current) && fuel > 0 ==> w.visited != [] && w.visited[0] == current.value
    decreases fuel
  {
    if !Continues(current) then Walked([], true)
    else if fuel == 0 then Walked([], false)
    else
      var rest := Walk(site, base, NextUrl(site, base, current.value), fuel - 1);
      Walked([current.value] + rest.visited, rest.done)
  }

  /** `get_and_process_page`'s effect on the files: the downloads of every
      article the index page at `url` lists. */
  function ProcessIndexPage(site: Site, base: string, url: string, store: Store): Store {
    Dispatch(Jobs(site, base, site.index(url).articleHrefs), store).store
  }

  /** The files after processing the index pages `visited` in order. */
  function StoreAfter(site: Site, base: string, visited: seq<string>, store: Store): (after: Store)
    ensures Preserves(store, after)
  {
    if visited == [] then store
    else StoreAfter(site, base, visited[1..], ProcessIndexPage(site, base, visited[0], store))
  }
  /** Every article an index page lists that has a title and content is
      saved once the page is processed: under its cleaned, stripped title. */
  lemma ProcessIndexPageSaves(site: Site, base: string, url: string, store: Store, i: nat)
    requires i < |site.index(url).articleHrefs|
    requires HasArticle(site.article(base + site.index(url).articleHrefs[i]))
    ensures FileName(Title(site.article(base + site.index(url).articleHrefs[i])))
            in ProcessIndexPage(site, base, url, store)
  {
    var jobs := Jobs(site, base, site.index(url).articleHrefs);
    DispatchReports(jobs, store);
    assert Reported(jobs[i], Dispatch(jobs, store).outcomes[i], Dispatch(jobs, store).store);
  }

  /** The same for every index page of a walk: an article with a title and
      content listed on any visited page is in the final directory. */
  lemma {:induction false} StoreAfterSaves(site: Site, base: string, visited: seq<string>, store: Store, k: nat, i: nat)
    requires k < |visited| && i < |site.index(visited[k]).articleHrefs|
    requires HasArticle(site.article(base + site.index(visited[k]).articleHrefs[i]))
    ensures FileName(Title(site.article(base + site.index(visited[k]).articleHrefs[i])))
            in StoreAfter(site, base, visited, store)
    decreases |visited|
  {
    var next := ProcessIndexPage(site, base, visited[0], store);
    if k == 0 {
      ProcessIndexPageSaves(site, base, visited[0], store, i);
    } else {
      StoreAfterSaves(site, base, visited[1..], next, k - 1, i);
    }
  }


  function IndexMessage(url: string): string {
    "Scraping index page: " + url
  }

  function Messages(visited: seq<string>): (m: seq<string>)
    ensures |m| == |visited|
  {
    seq(|visited|, i requires 0 <= i < |visited| => IndexMessage(visited[i]))
  }

  /** The strings yielded by the generator: after the k-th index page, the
      first k index messages joined by newlines; after the last page, the
      same log with the completion message added. */
  function Progress(visited: seq<string>, done: bool): (logs: seq<string>)
    ensures |logs| == |visited| + (if done then 1 else 0)
  {
    seq(|visited|, k requires 0 <= k < |visited| => Join(Newline, Messages(visited[..k + 1])))
    + (if done then [Join(Newline, Messages(visited) + [CompletedMessage])] else [])
  }

  /** Each yield is the previous one with one more line: the log only grows. */
  lemma ProgressGrows(visited: seq<string>, done: bool, k: nat)
    requires 0 < k < |Progress(visited, done)|
    ensures var logs := Progress(visited, done);
            logs[k] == logs[k - 1] + Newline
                         + (if k < |visited| then IndexMessage(visited[k]) else CompletedMessage)
  {
    var m := Messages(visited[..k]);
    assert m != [] by { assert |m| == k; }
    if k < |visited| {
      assert Messages(visited[..k + 1]) == m + [IndexMessage(visited[k])];
      JoinSnoc(Newline, m, IndexMessage(visited[k]));
    } else {
      assert visited[..k] == visited;
      JoinSnoc(Newline, m, CompletedMessage);
    }
  }

  lemma ProgressSnoc(visited: seq<string>, url: string)
    ensures Messages(visited + [url]) == Messages(visited) + [IndexMessage(url)]
    ensures Progress(visited + [url], false)
            == Progress(visited, false) + [Join(Newline, Messages(visited + [url]))]
  {
    var v := visited + [url];
    assert v[..|visited| + 1] == v;
    forall k | 0 <= k < |visited|
      ensures Progress(v, false)[k] == Progress(visited, false)[k]
    {
      assert v[..k + 1] == visited[..k + 1];
    }
  }

  /** Processing one more index page applies its downloads to the files
      the earlier pages left. */
  lemma {:induction false} StoreAfterSnoc(site: Site, base: string, visited: seq<string>, url: string, store: Store)
    ensures StoreAfter(site, base, visited + [url], store)
            == ProcessIndexPage(site, base, url, StoreAfter(site, base, visited, store))
    decreases |visited|
  {
    if visited == [] {
      assert [] + [url] == [url];
      assert [url][1..] == [];
    } else {
      var next := ProcessIndexPage(site, base, visited[0], store);
      assert (visited + [url])[1..] == visited[1..] + [url];
      StoreAfterSnoc(site, base, visited[1..], url, next);
    }
  }

  /** What the crawl loop keeps after the index pages `visited`: the
      messages and yields so far, the files so far, and the rest of the walk
      `w` from the current URL with the fuel left. */
  ghost predicate Visited(site: Site, base: string, store: Store, w: Walked, visited: seq<string>,
                          current: Option<string>, fuel: nat, messages: seq<string>,
                          logs: seq<string>, saved: Store)
  {
    && messages == Messages(visited)
    && logs == Progress(visited, false)
    && saved == StoreAfter(site, base, visited, store)
    && visited + Walk(site, base, current, fuel).visited == w.visited
    && Walk(site, base, current, fuel).done == w.done
  }

  /** One turn of the crawl loop: logging, yielding and processing the
      current page and following its next link visits one more page of the
      walk. */
  lemma VisitNext(site: Site, base: string, store: Store, w: Walked, visited: seq<string>,
                  current: Option<string>, fuel: nat, messages: seq<string>,
                  logs: seq<string>, saved: Store)
    requires Visited(site, base, store, w, visited, current, fuel, messages, logs, saved)
    requires Continues(current) && fuel > 0
    ensures var url := current.value;
            var m := messages + [IndexMessage(url)];
            Visited(site, base, store, w, visited + [url], NextUrl(site, base, url), fuel - 1,
                    m, logs + [Join(Newline, m)], ProcessIndexPage(site, base, url, saved))
  {
    var url := current.value;
    var rest := Walk(site, base, NextUrl(site, base, url), fuel - 1);
    assert (visited + [url]) + rest.visited == visited + ([url] + rest.visited);
    ProgressSnoc(visited, url);
    StoreAfterSnoc(site, base, visited, url, store);
  }

  /** Where the loop stops, the pages visited are the whole walk. */
  lemma VisitedAll(site: Site, base: string, store: Store, w: Walked, visited: seq<string>,
                   current: Option<string>, fuel: nat, messages: seq<string>,
                   logs: seq<string>, saved: Store)
    requires Visited(site, base, store, w, visited, current, fuel, messages, logs, saved)
    requires !Continues(current) || fuel == 0
    ensures visited == w.visited && Walk(site, base, current, fuel).done == !Continues(current)
  {
    assert visited + [] == visited;
  }

  /** The last yield adds the completion line to the log of every page. */
  lemma ProgressDone(visited: seq<string>)
    ensures Progress(visited, true)
            == Progress(visited, false) + [Join(Newline, Messages(visited) + [CompletedMessage])]
  {
  }

  /** `urls` is a chain of index pages: each page's next link leads to the
      following one, and the last page has no usable next link. */
  predicate IsChain(site: Site, base: string, urls: seq<string>) {
    && urls != []
    && (forall i :: 0 <= i < |urls| ==> urls[i] != [])
    && (forall i :: 0 <= i < |urls| - 1 ==> NextUrl(site, base, urls[i]) == Some(urls[i + 1]))
    && !Continues(NextUrl(site, base, urls[|urls| - 1]))
  }

  /** With enough fuel, the walk along a chain visits exactly its pages and
      ends by itself. */
  lemma {:induction false} ChainWalk(site: Site, base: string, urls: seq<string>, fuel: nat)
    requires IsChain(site, base, urls) && fuel >= |urls|
    ensures Walk(site, base, Some(urls[0]), fuel) == Walked(urls, true)
    decreases |urls|
  {
    var next := NextUrl(site, base, urls[0]);
    if |urls| == 1 {
      assert Walk(site, base, next, fuel - 1) == Walked([], true);
      assert [urls[0]] + [] == urls;
    } else {
      assert IsChain(site, base, urls[1..]) by {
        assert forall i :: 0 <= i < |urls| - 1 ==> urls[1..][i] == urls[i + 1];
      }
      ChainWalk(site, base, urls[1..], fuel - 1);
      assert next == Some(urls[1..][0]);
      assert [urls[0]] + urls[1..] == urls;
    }
  }

  /** For a chain of K index pages the generator yields K + 1 times: the
      yield after page k + 1 joins the index messages of pages 1 .. k + 1,
      and the last adds the completion message to all K of them. */
  lemma ChainProgress(site: Site, base: string, urls: seq<string>, fuel: nat)
    requires IsChain(site, base, urls) && fuel >= |urls|
    ensures var w := Walk(site, base, Some(urls[0]), fuel);
            var logs := Progress(w.visited, w.done);
            && w.done
            && |logs| == |urls| + 1
            && (forall k :: 0 <= k < |urls| ==>
                  logs[k] == Join(Newline, seq(k + 1, i requires 0 <= i <= k => IndexMessage(urls[i]))))
            && logs[|urls|] == Join(Newline, Messages(urls) + [CompletedMessage])
  {
    ChainWalk(site, base, urls, fuel);
    var logs := Progress(urls, true);
    forall k | 0 <= k < |urls|
      ensures logs[k] == Join(Newline, seq(k + 1, i requires 0 <= i <= k => IndexMessage(urls[i])))
    {
      assert Messages(urls[..k + 1]) == seq(k + 1, i requires 0 <= i <= k => IndexMessage(urls[i]));
    }
  }

  /** Conversely, the walk only ever follows next links: each visited page
      is the next URL of the one before, and a walk that ended by itself
      after visiting some pages has visited a chain. */
  lemma {:induction false} WalkFollowsLinks(site: Site, base: string, current: Option<string>, fuel: nat)
    ensures var w := Walk(site, base, current, fuel);
            && (forall i :: 0 <= i < |w.visited| - 1 ==> NextUrl(site, base, w.visited[i]) == Some(w.visited[i + 1]))
            && (w.done && w.visited != [] ==> IsChain(site, base, w.visited))
    decreases fuel
  {
    if Continues(current) && fuel > 0 {
      var next := NextUrl(site, base, current.value);
      var rest := Walk(site, base, next, fuel - 1);
      var v := [current.value] + rest.visited;
      WalkFollowsLinks(site, base, next, fuel - 1);
      assert forall i :: 0 < i < |v| ==> v[i] == rest.visited[i - 1];
      if rest.visited == [] {
        assert rest.done ==> !Continues(next);
      } else {
        assert next == Some(rest.visited[0]);
      }
    }
  }

  /** A next link that leads back to its own page is never left: with any
      amount of fuel the walk does not end by itself. */
  lemma {:induction false} SelfLinkNeverFinishes(site: Site, base: string, url: string, fuel: nat)
    requires url != [] && NextUrl(site, base, url) == Some(url)
    ensures !Walk(site, base, Some(url), fuel).done
    ensures Walk(site, base, Some(url), fuel).visited == seq(fuel, i => url)
  {
    if fuel > 0 {
      SelfLinkNeverFinishes(site, base, url, fuel - 1);
      assert [url] + seq(fuel - 1, i => url) == seq(fuel, i => url);
    }
  }

  /** The index walk of `scrape_fandom` from the first index page `start`:
      each turn logs the page, yields the log, processes the page and moves
      to the URL it returns. It runs at most `fuel` index pages: the source
      has no bound of its own, and a cycle of next links would make it run
      forever. `finished` tells whether the loop ended by itself, in which
      case the completion line has been yielded too. */
  method WalkIndex(site: Site, base: string, start: string, store: Store, fuel: nat)
    returns (logs: seq<string>, saved: Store, finished: bool)
    ensures var w := Walk(site, base, Some(start), fuel);
            && finished == w.done
            && logs == Progress(w.visited, w.done)
            && saved == StoreAfter(site, base, w.visited, store)
  {
    ghost var w := Walk(site, base, Some(start), fuel);
    ghost var visited: seq<string> := [];
    var current: Option<string> := Some(start);
    var messages: seq<string> := [];
    var left := fuel;
    logs := [];
    saved := store;
    assert Progress([], false) == [];
    assert [] + w.visited == w.visited;
    while Continues(current) && left > 0
      invariant Visited(site, base, store, w, visited, current, left, messages, logs, saved)
    {
      var url := current.value;
      VisitNext(site, base, store, w, visited, current, left, messages, logs, saved);
      messages := messages + [IndexMessage(url)];
      logs := logs + [Join(Newline, messages)];
      saved := ProcessIndexPage(site, base, url, saved);
      current := NextUrl(site, base, url);
      visited := visited + [url];
      left := left - 1;
    }
    VisitedAll(site, base, store, w, visited, current, left, messages, logs, saved);
    finished := !Continues(current);
    ProgressDone(visited);
    if finished {
      logs := logs + [Join(Newline, messages + [CompletedMessage])];
    }
  }

  /** `scrape_fandom`, with the site and the save directory as values: strip
      the trailing slashes, derive the first index page and walk the index.
      No file that was already saved is overwritten. */
  method ScrapeFandom(fandomUrl: string, site: Site, store: Store, fuel: nat)
    returns (logs: seq<string>, saved: Store, finished: bool)
    ensures var w := Walk(site, BaseUrl(fandomUrl), Some(AllPagesUrl(fandomUrl)), fuel);
            && finished == w.done
            && logs == Progress(w.visited, w.done)
            && saved == StoreAfter(site, BaseUrl(fandomUrl), w.visited, store)
    ensures Preserves(store, saved)
  {
    logs, saved, finished := WalkIndex(site, BaseUrl(fandomUrl), AllPagesUrl(fandomUrl), store, fuel);
  }
}

=== FILE: strings.dfy ===
/** Character classes and small string utilities shared by the converter,
    the article writer and the crawler: Python's `str.isspace`, `str.strip`,
    right-stripping slashes, `str.join`, repeating a character and decimal formatting of a
    natural number, each written out once. */
module Strings {

  /** An ASCII decimal digit (what `\d` matches on ASCII input). */
  predicate IsDigit(c: char) {
    '0' <= c <= '9'
  }

  /** A character for which Python's `str.isspace()` is true: the
      whitespace control characters, U+001C..U+001F, the space, NEL,
      NO-BREAK SPACE and the Unicode space separators and line/paragraph
      separators. These are exactly the characters `str.strip()` removes. */
  predicate IsSpace(c: char) {
    || ('\t' <= c <= '\r')
    || ('\U{1C}' <= c <= ' ')
    || c == '\U{85}' || c == '\U{A0}' || c == '\U{1680}'
    || ('\U{2000}' <= c <= '\U{200A}')
    || c == '\U{2028}' || c == '\U{2029}' || c == '\U{202F}'
    || c == '\U{205F}' || c == '\U{3000}'
  }

  predicate AllSpace(s: string) {
    forall i :: 0 <= i < |s| ==> IsSpace(s[i])
  }

  /** The number of leading whitespace characters. */
  function LeadingSpaces(s: string): (n: nat)
    ensures n <= |s|
    ensures forall i :: 0 <= i < n ==> IsSpace(s[i])
    ensures n < |s| ==> !IsSpace(s[n])
  {
    if s != [] && IsSpace(s[0]) then 1 + LeadingSpaces(s[1..]) else 0
  }

  /** The length left once the trailing whitespace is cut off. */
  function KeptBeforeSpaces(s: string): (n: nat)
    ensures n <= |s|
    ensures forall i :: n <= i < |s| ==> IsSpace(s[i])
    ensures n > 0 ==> !IsSpace(s[n - 1])
  {
    if s != [] && IsSpace(s[|s| - 1]) then KeptBeforeSpaces(s[..|s| - 1]) else |s|
  }

  /** Left strip: drop the leading whitespace. */
  function TrimStart(s: string): (r: string)
    ensures |r| <= |s| && r == s[|s| - |r|..]
    ensures AllSpace(s[..|s| - |r|])
    ensures r == [] || !IsSpace(r[0])
  {
    s[LeadingSpaces(s)..]
  }

  /** Right strip: drop the trailing whitespace. */
  function TrimEnd(s: string): (r: string)
    ensures |r| <= |s| && r == s[..|r|]
    ensures AllSpace(s[|r|..])
    ensures r == [] || !IsSpace(r[|r| - 1])
  {
    s[..KeptBeforeSpaces(s)]
  }

  /** `s.strip()`: the longest infix of `s` that neither starts nor ends with
      whitespace, obtained by cutting whitespace-only ends. */
  function Strip(s: string): (r: string)
    ensures |r| <= |s|
    ensures r == [] <==> AllSpace(s)
    ensures r != [] ==> !IsSpace(r[0]) && !IsSpace(r[|r| - 1])
  {
    StripEnds(s);
    TrimEnd(TrimStart(s))
  }

  lemma StripEnds(s: string)
    ensures TrimEnd(TrimStart(s)) == [] <==> AllSpace(s)
  {
    var t := TrimStart(s);
    var r := TrimEnd(t);
    var k := |s| - |t|;
    if r == [] {
      assert s == s[..k];
    } else {
      assert s[k] == t[0];
      assert t[0] == r[0];
    }
  }

  /** Text that neither starts nor ends with whitespace is its own strip. */
  lemma StripTrimmed(s: string)
    requires s == [] || (!IsSpace(s[0]) && !IsSpace(s[|s| - 1]))
    ensures Strip(s) == s
  {
  }

  /** Stripping is witnessed by a split of the input into a whitespace
      prefix, the result and a whitespace suffix. */
  lemma StripIsInfix(s: string)
    ensures exists i, j :: 0 <= i <= j <= |s| && Strip(s) == s[i..j]
                           && AllSpace(s[..i]) && AllSpace(s[j..])
  {
    var t := TrimStart(s);
    var r := TrimEnd(t);
    var i := |s| - |t|;
    var j := i + |r|;
    assert s[i..j] == t[..|r|];
    assert s[j..] == t[|r|..];
    assert Strip(s) == s[i..j];
  }

  /** The length left once the trailing slashes are cut off. */
  function KeptBeforeSlashes(s: string): (n: nat)
    ensures n <= |s|
    ensures forall i :: n <= i < |s| ==> s[i] == '/'
    ensures n > 0 ==> s[n - 1] != '/'
  {
    if s != [] && s[|s| - 1] == '/' then KeptBeforeSlashes(s[..|s| - 1]) else |s|
  }

  /** Right strip of slashes only: drop every trailing slash. */
  function TrimTrailingSlashes(s: string): (r: string)
    ensures |r| <= |s| && r == s[..|r|]
    ensures forall i :: |r| <= i < |s| ==> s[i] == '/'
    ensures r == [] || r[|r| - 1] != '/'
  {
    s[..KeptBeforeSlashes(s)]
  }

  /** The character `c` repeated `n` times. */
  function Repeat(c: char, n: nat): (r: string)
    ensures |r| == n
    ensures forall i :: 0 <= i < n ==> r[i] == c
  {
    if n == 0 then [] else [c] + Repeat(c, n - 1)
  }

  /** The parts concatenated with nothing between them. */
  function Concat(parts: seq<string>): string {
    if parts == [] then [] else parts[0] + Concat(parts[1..])
  }

  lemma {:induction false} ConcatAppend(a: seq<string>, b: seq<string>)
    ensures Concat(a + b) == Concat(a) + Concat(b)
  {
    if a == [] {
      assert a + b == b;
    } else {
      assert (a + b)[1..] == a[1..] + b;
      ConcatAppend(a[1..], b);
    }
  }

  /** The parts with `sep` between each two neighbours. */
  function Join(sep: string, parts: seq<string>): string {
    if parts == [] then []
    else if |parts| == 1 then parts[0]
    else parts[0] + sep + Join(sep, parts[1..])
  }

  /** Joining one more part adds exactly one separator and that part at the
      end: a cumulative newline-joined log grows by appending. */
  lemma {:induction false} JoinSnoc(sep: string, parts: seq<string>, last: string)
    requires parts != []
    ensures Join(sep, parts + [last]) == Join(sep, parts) + sep + last
  {
    if |parts| == 1 {
      assert (parts + [last])[1..] == [last];
    } else {
      assert (parts + [last])[1..] == parts[1..] + [last];
      JoinSnoc(sep, parts[1..], last);
    }
  }

  function DigitChar(d: nat): (c: char)
    requires d < 10
    ensures IsDigit(c)
  {
    (48 + d) as char
  }

  function DigitValue(c: char): nat
    requires IsDigit(c)
  {
    (c as int) - 48
  }

  /** `str(n)` for a natural number: its decimal digits, most significant
      first, without leading zeros. */
  function NatToString(n: nat): (r: string)
    ensures |r| >= 1
    ensures forall i :: 0 <= i < |r| ==> IsDigit(r[i])
    ensures r[0] == '0' ==> r == "0"
  {
    if n < 10 then [DigitChar(n)] else NatToString(n / 10) + [DigitChar(n % 10)]
  }

  /** The value of a string of decimal digits (`int(s)`). */
  function ParseDigits(s: string): nat
    requires forall i :: 0 <= i < |s| ==> IsDigit(s[i])
  {
    if s == [] then 0 else 10 * ParseDigits(s[..|s| - 1]) + DigitValue(s[|s| - 1])
  }

  /** Decimal formatting loses nothing: parsing the digits gives back `n`. */
  lemma {:induction false} ParseNatToString(n: nat)
    ensures ParseDigits(NatToString(n)) == n
  {
    var r := NatToString(n);
    if n >= 10 {
      assert r[..|r| - 1] == NatToString(n / 10);
      ParseNatToString(n / 10);
    }
  }
}

=== FILE: wrappers.dfy ===
/** Values that may be absent: a missing title, content tree or next-page
    link. */
module Wrappers {

  datatype Option<+T> = None | Some(value: T)
}
